=== FILE: README.md ===
# effective-mobile-task: a Dafny model of the people directory

The service keeps a table of people. `/add` takes a name, surname and
patronymic. It looks up age, gender and nationality by first name from three
public services (agify, genderize, nationalize), then inserts the enriched
record. `/get` lists people with optional exact-match filters and keyset
pagination (`id > cursor ORDER BY id LIMIT n`). `/update` overwrites a record
by id, and `/delete` removes one.

The project models three parts of the code:

- `store/store.go`: the four statements and `NewParams`, as pure functions on
  an in-memory table (`Store.Table`, rows in id order plus the next serial
  value).
- `enrich/enrich.go`: the enrichment combinator and the step that picks the
  answer out of each service response.
- `api/api.go`: the decisions each handler makes (method gate, parameter
  parsing and range checks, enrich before save) and the store call it then
  issues.

Modules:

| file | module | contents |
|---|---|---|
| wrappers.dfy | `Wrappers` | `Option`, `Result` |
| goint.dfy | `GoInt` | 64-bit `int` range and wrap-around; `strconv.Atoi` and `strconv.Itoa` |
| store.dfy | `Store` | `Person`, `Table`, `GetParams`; `SavePerson`, `UpdatePerson`, `DeletePerson`, `NewParams`, `GetPeople`, and `GetPeopleChecked`, the corrected row loop |
| pagination.dfy | `Pagination` | properties that relate several store calls: pages, chaining, serial ids, idempotence |
| enrich.dfy | `Enrich` | `GetAge`, `GetGender`, `GetNationality`, `EnrichPerson` |
| api.dfy | `Api` | `GetPlan`, `DeletePlan`, `UpdatePlan`, `AddPlan`, `Serve`; whole `/get` and `/delete` requests |
| cursor.dfy | `Cursor` | the response cursor of `/get`: as written, and the keyset cursor |

The modelling choices:

- **Database errors.** Each store operation takes the driver error it may
  meet as a parameter (`fault`). A failed statement leaves the table as it
  was, its serial included (see "Left out"). Two errors PostgreSQL raises
  whatever the driver does are fixed: a negative `LIMIT`, and an age filter
  that does not fit the `INTEGER` the statement casts it to.
- **Reading rows.** `GetPeople` also takes one possible scan error per row,
  and the point, if any, where the row stream breaks off.
- **External services.** Each is a function from the name to the decoded
  response or to an error. Errors cover URL parsing, building the request,
  transport including the context deadline, and JSON decoding.
- **Handlers.** Each is split in two:
  - a pure plan, which is either the error status it writes or the one
    store call it makes;
  - `Api.Serve`, which runs that call and builds the response.
- **Parameter types.** `api/api.go` builds `store.Params` with plain values,
  but `store.GetPeople` takes `*GetParams`. The two packages disagree here.
  The model routes the handler's values through `Store.NewParams`, which
  turns a zero value into an absent filter.

## Model

| member | source | states |
|---|---|---|
| GoInt.Atoi | api/api.go:101 | accepts exactly an optional sign followed by at least one decimal digit whose value fits in 64 bits, and yields that value; the empty string is an error |
| GoInt.Add | api/api.go:150 | the sum of two 64-bit ints wraps modulo 2^64: it equals the true sum when that fits, and is off by exactly 2^64 on positive or negative overflow |
| GoInt.AtoiItoa | api/api.go:101 | every 64-bit int survives formatting and parsing back |
| Store.SavePerson | store/store.go:53-61 | fails exactly when the driver fails, with that error. On success it appends one row that has every attribute of the argument and the next serial id. It returns that id, which is above every existing id, and keeps the table valid |
| Store.UpdatePerson | store/store.go:64-79 | fails exactly when the driver fails. Every row whose id equals the argument's id gets all six attributes of the argument, and every other row is unchanged. Ids, row count and the serial are kept; an unknown id changes nothing; validity is kept |
| Store.DeletePerson | store/store.go:42-50 | fails exactly when the driver fails. Afterwards no row has the id, the remaining rows are exactly the old rows with another id, an unknown id changes nothing, and validity and the serial are kept |
| Store.NewParams | store/store.go:93-116 | copies the limit and always sets the cursor. Each string filter is present iff its argument is non-empty, the age filter iff the age is non-zero, and a present filter carries its argument |
| Store.NewParamsWhere | store/store.go:93-136 | the `WHERE` clause built from `NewParams` admits a row iff its id is above the cursor and it equals every argument that is not "" (for age, not 0) |
| Store.ZeroValuesDoNotFilter | store/store.go:103-108 | no arguments select rows by an empty patronymic or by age 0: with those arguments a row's patronymic and age play no part |
| Store.Matching | store/store.go:126-136 | a row is selected iff it is in the table, its id is above the cursor when one is given, and it equals every present filter; an id-ordered table gives an id-ordered result |
| Store.Select | store/store.go:126-138 | at most `limit` rows; each is a table row admitted by the `WHERE` clause, and they come in ascending id order |
| Store.GetPeople | store/store.go:120-158 | a query error fails; an age filter outside PostgreSQL's 32-bit `INTEGER` (the `$5::INTEGER` cast) fails with `OutOfRange`; then a negative `LIMIT` fails. Otherwise the call succeeds iff none of the rows the stream delivers fails to scan, and else fails with the first scan error. A success is the prefix of the selected page that the stream delivered, and the whole page when the stream does not break |
| Store.GetPeopleChecked | store/store.go:148-157 | the same query errors, then the same loop followed by a `rows.Err` check: success iff the stream does not break and no row fails to scan, and a success is always the whole selected page |
| Store.KeepAscending | store/store.go:137 | filtering rows keeps their id order |
| Pagination.AscendingUnique | store/store.go:137 | two id-ordered sequences with the same rows are equal, so `ORDER BY id` fixes the result |
| Pagination.SelectSkipsNothing | store/store.go:137 | the page holds min(limit, number of matching rows) rows. A matching row left out means the page is full and the row's id is above the page's last id |
| Pagination.AbsentFiltersAdmitAll | store/store.go:131-136 | with every filter absent and no cursor the page is the first `limit` rows of the table |
| Pagination.NextPageMatching | store/store.go:127-130 | with the cursor set to the id of the n-th matching row, the matching rows are exactly those after the first n |
| Pagination.SelectIsPrefix | store/store.go:137 | the page is the prefix of the matching rows that the limit allows |
| Pagination.SecondPage | store/store_test.go:201-206 | the page after a non-empty first page, with the cursor at the first page's last id, is the next slice of the matching rows |
| Pagination.PagesChain | store/store_test.go:194-206 | a page of L1 rows followed by the page of L2 rows after its last id equals the page of L1+L2 rows |
| Pagination.SavePersonInserts | store/store.go:53-61 | a successful `SavePerson` is the insert that `SaveAll` repeats, under the serial's current value |
| Pagination.SaveAllAppends | store/store.go:57-58 | a series of inserts appends the records in order with consecutive ids from the serial's current value |
| Pagination.SaveFromEmpty | store/store_test.go:180-185 | inserts into a fresh table receive ids 1, 2, 3, ... in order and keep all their attributes |
| Pagination.BrokenStreamAnswersShortPage | store/store.go:148-157 | a two-row page whose stream breaks after the first row comes back as a success holding the first row alone |
| Pagination.DeleteIdempotent | store/store.go:45-49 | deleting an id twice leaves the same table as deleting it once |
| Pagination.UpdateUnknownIsNoop | store/store.go:67-77 | an update whose id no row carries succeeds and changes nothing |
| Enrich.GetAge | enrich/enrich.go:83-114 | succeeds iff the agify lookup succeeds, with the `age` field of the response, and otherwise returns the lookup's error |
| Enrich.GetGender | enrich/enrich.go:124-155 | succeeds iff the genderize lookup succeeds, with the `gender` field of the response, and otherwise returns the lookup's error |
| Enrich.GetNationality | enrich/enrich.go:167-198 | succeeds iff the lookup succeeds with a non-empty country list, with the first country's id. A lookup error is returned; an empty list panics |
| Enrich.EnrichPerson | enrich/enrich.go:41-74 | issues age, gender and nationality lookups in this order and stops at the first failure, which is its result. It succeeds iff no lookup fails, and then carries the three input names and the three looked-up values |
| Enrich.ZeroValuesPassThrough | enrich/enrich.go:107-113 | responses with a null age, a null gender and one guess with a null `country_id` decode to zero values that enrichment accepts as a success |
| Enrich.EmptyCountryListPanics | enrich/enrich.go:190-197 | a nationality response whose country list is null or empty makes the enrichment fail with the index panic, even though every lookup succeeded |
| Enrich.AgeFailureStopsAll | enrich/enrich.go:44-48 | a failed age lookup is the result, and no other lookup is issued |
| Api.GetPlan | api/api.go:86-142 | 405 iff the method is not GET. Otherwise the store is called iff `limit` parses into 1..100 and `cursor` and `age` are empty or parse as non-negative, and 400 is the result otherwise. The call carries those values and the query's filters via `NewParams` (absent cursor and age are 0), and the response cursor is cursor + limit |
| Api.DeletePlan | api/api.go:162-188 | 405 iff the method is not DELETE. Otherwise the delete is issued iff `id` parses as an integer, with that id; a missing or malformed id gives 400 |
| Api.UpdatePlan | api/api.go:205-232 | 405 iff the method is neither PUT nor PATCH. Otherwise 400 iff the body does not decode, and else an update carrying the body's id and all six attributes |
| Api.AddPlan | api/api.go:245-279 | 405 iff the method is not POST; 400 iff the body does not decode. Then the insert is issued iff enrichment succeeds, carrying the body's names and the looked-up attributes. A returned enrichment error gives 500, and a nationality panic drops the request |
| Api.Serve | api/api.go:132-158 | the store call and reply of all four handlers: `/get` (api/api.go:132-158), `/delete` (api/api.go:187-191), `/update` (api/api.go:223-235) and `/add` (api/api.go:271-290). A rejected plan writes its status and leaves the table alone, and a panic drops the request. A store error gives 500 and leaves the table unchanged; with no error a delete, update or insert answers 200. A listing answers 200 exactly when the query runs, the age filter fits PostgreSQL's 32-bit `INTEGER`, the limit is not negative and every delivered row scans; it returns the delivered rows (the whole selected page unless the stream broke) with the planned cursor. A delete or update returns an empty body; an insert returns the new id and moves the serial on by one. Validity of the table is kept |
| Api.GetRequest | api/api.go:86-158 | a `/get` that fails a parameter check gets an error; one that passes them, whose age fits PostgreSQL's 32-bit `INTEGER` and that meets no driver or scan error gets 200, and one whose age does not fit gets 500. An answered `/get` carries cursor + limit and holds table rows in id order, each with an id above the query's cursor and equal to every filter the query gives a value. Unless the stream broke, a row the query asks for that is missing lies beyond a full page |
| Api.DeleteRequest | api/api.go:162-191 | `/delete` with an integer id and no driver error answers 200 and leaves exactly the rows with another id. Another method gives 405, a missing or malformed id 400, and a driver error leaves the table unchanged |
| Api.AgeBeyondIntegerFails | store/store.go:134 | `/get?limit=1&age=2147483648` passes the handler's checks but answers 500 on every table, because the age is bound as a PostgreSQL `INTEGER` |
| Api.DeleteRepeated | api/api.go:162-191 | sending the same `/delete` twice gives the same answer twice, and the second changes nothing |
| Api.ResponseCursor | api/api.go:150 | the response cursor is the request cursor plus the limit whenever the sum fits in 64 bits |
| Api.EmptyCountryListDropsAdd | api/api.go:263-279 | an `/add` whose nationality lookup returns no country guess is dropped before any store call |
| Api.MissingLimitRejected | api/api.go:100-106 | a request without `limit` gets 400 |
| Api.UpdateOverwritesEveryField | api/api.go:224-232 | an update writes every attribute of the body into the row with its id, empty strings and zero age included |
| Cursor.ResponseCursorNeverSkips | api/api.go:150 | every matching row a page leaves out has an id above cursor + limit, so the next request can still reach it |
| Cursor.ResponseCursorRepeatsRows | api/api.go:150 | with a surname filter, limit 1 and cursor 0, the answer cursor 1 makes the next request return the same row again |
| Cursor.KeysetCursor | api/api.go:150 | the corrected next-page cursor: the last id of the page, or the request cursor on an empty page; it is never below the request cursor, and on a page in id order no row lies above it |
| Cursor.KeysetCursorChains | api/api_test.go:113 | with the last id of the page as the next cursor, two consecutive pages concatenate to the single page with the summed limit, and every row of the second page comes after the first |
| Cursor.HandlerTestExpectsKeysetCursor | api/api_test.go:113 | an illustration only: for the one-row page of the handler test (cursor 0, limit 5) this handler answers 5, while the test, written for another version of the handler, expects the keyset cursor 1 |

## Left out

- `cmd/main.go` and `Service.Run` are not modelled: they cover server start-up, routing and shutdown, which have no logic beyond wiring.
- HTTP, URL encoding and JSON encoding and decoding are not modelled. A body that does not decode is `None`, and a query is a map from keys to value lists.
- Logging and concurrency between requests are not modelled. Each request runs alone against one table value.
- `context` cancellation and deadlines appear only as abstract errors: as a driver error, as a break of the row stream (`Store.StreamBreak`), or as a lookup error of an external service.
- The mocks (`store_mock.go`, `enrich_mock.go`) are not modelled. The model passes services and faults as parameters instead.
- The float `probability` fields of the service responses are not modelled, because the code never reads them.
- GoInt.Atoi: models Go's `int` as 64 bits. On a 32-bit platform the accepted range would be smaller.
- Store.SavePerson: the serial id is unbounded. The table's column types come from the migrations, which are not part of this model. If `id` is a 32-bit `SERIAL`, the serial overflow at 2^31-1 is not modelled.
- Store.DeletePerson: an id outside PostgreSQL's 32-bit range is not refused. If `id` is a 32-bit column, PostgreSQL would refuse such an id at `WHERE id = $1` (store/store.go:45), and the handler would answer 500. `Api.DeleteRepeated` promises 200 for every 64-bit id.
- Store.UpdatePerson: an id or age outside PostgreSQL's 32-bit range is not refused. If `id` and `age` are 32-bit columns, such a value would fail `WHERE id = $7` or `age = $4` (store/store.go:67-77).
- Store.GetPeople: only the age filter's range is modelled (`OutOfRange`), because the statement casts it to `INTEGER` itself (store/store.go:134). The cursor's type is taken from the `id` column (`id > $8`, store/store.go:128). A cursor of 2^31 or more would fail if that column is 32-bit, and the model does not refuse it.
- Store.SavePerson: an age outside PostgreSQL's 32-bit range is not refused. If `age` is a 32-bit column, such an age would fail the INSERT.
- Store.GetPeople: `ORDER BY id` comes from the table's own id order (see `Store.Valid`), not from a sort.
- Store.SavePerson: a failed INSERT may use up a serial value, because PostgreSQL does not roll back `nextval`. The model keeps the serial unchanged, so after a failed insert later ids may in fact skip one.
- Api.Serve: the error path of `json.Marshal` (api/api.go:151-155) is not modelled, because a page of people always marshals.
- Api.Serve: the reply of `/add` ignores the `json.Marshal` error (api/api.go:288). The model returns the id.
- The three lookups of `EnrichPerson` run one after the other (enrich/enrich.go:44-63), and the model does the same.
- `/update` overwrites all six attributes with the body's values, empty or zero ones included (api/api.go:224-232), although its comment at api/api.go:204 says it updates the non-empty fields. The model follows the statement.
- The `/get` response always carries a cursor, `cursor + limit` (api/api.go:150), whether or not the page was full.
- `/update` and `/delete` answer 200 with an empty body whether or not a row has the id, because neither statement's row count is read.
- Api.GetPlan: the handler hands a `store.Params` value to a store that takes `*GetParams`. The model assumes the values pass through `Store.NewParams`, so an age of 0 means "no age filter".

## Findings

| source | as written | input that shows it | evidently intended | confidence | as-written member | corrected member |
|---|---|---|---|---|---|---|
| api/api.go:150 | the next-page cursor is `cursor + limit`, an offset, while the store pages by `id > cursor` | rows with ids 1 (Petrov) and 2 (Ivanova); `/get?surname=Ivanova&limit=1` returns id 2 with cursor 1, and the next request from cursor 1 returns id 2 again. The handler test (api/api_test.go:113) reads a `NextCursor` field the current response type does not have, so it was written for another version of the handler; it expects the last id (1) for a one-row page | the cursor is the id of the last row on the page, so consecutive pages chain without repeats | high (not executed) | Cursor.ResponseCursorRepeatsRows | Cursor.KeysetCursorChains |
| store/store.go:148-157 | the row loop ends when `rows.Next` reports false, and `rows.Err` is never read, so a stream that breaks off ends the loop like a finished one | a five-row page whose connection drops after the first row: `GetPeople` succeeds with one row, and `/get` answers 200 with that row | after the loop, return the error of `rows.Err` when there is one, so a success is always the whole page | high (not executed) | Pagination.BrokenStreamAnswersShortPage | Store.GetPeopleChecked |

The handler model (`Api.GetPlan`, `Api.Serve`) keeps the as-written cursor,
because that is what the handler sends. The keyset cursor (`Cursor.KeysetCursor`)
is the one the pagination properties are stated for. In the same way,
`Api.Serve` calls the as-written `Store.GetPeople`, so the handler model
answers a truncated page as the code does. `Store.GetPeopleChecked` is the
corrected read loop.

=== FILE: api.dfy ===
/** The four HTTP handlers of `api.Service`.

    Each handler is split in two. A pure `...Plan` function does everything
    the handler decides on its own: the method gate, parsing and range checks
    of the query or body, and (for `/add`) the enrichment. It yields either
    the error status the handler writes or the one store call it makes.
    `Serve` then runs that call against the table and builds the response. */
module Api {
  import opened Wrappers
  import opened GoInt
  import Store
  import Pagination
  import Enrich

  const StatusBadRequest: int := 400
  const StatusMethodNotAllowed: int := 405
  const StatusInternalServerError: int := 500

  const MethodGet: string := "GET"
  const MethodPost: string := "POST"
  const MethodPut: string := "PUT"
  const MethodPatch: string := "PATCH"
  const MethodDelete: string := "DELETE"

  /** `url.Values`: each key maps to the list of values given for it. */
  type Query = map<string, seq<string>>

  /** `url.Values.Get`: the first value, or "" when the key is missing. */
  function QueryGet(q: Query, key: string): (v: string)
    ensures key !in q ==> v == ""
    ensures key in q && 0 < |q[key]| ==> v == q[key][0]
  {
    if key in q && 0 < |q[key]| then q[key][0] else ""
  }

  /** The decoded JSON bodies; `None` stands for a body that does not decode. */
  datatype UpdateRequest = UpdateRequest(
    id: int, name: string, surname: string, patronymic: string,
    age: int, gender: string, nationality: string)

  datatype AddRequest = AddRequest(name: string, surname: string, patronymic: string)

  /** What a handler does after looking at the request. */
  datatype Plan =
    | Reject(status: int)                                  // http.Error and return
    | Abort                                                // the handler panicked
    | List(params: Store.GetParams, responseCursor: int)   // GetPeople
    | Remove(id: int)                                      // DeletePerson
    | Edit(person: Store.Person)                           // UpdatePerson
    | Insert(person: Store.Person)                         // SavePerson

  predicate StoreCall(p: Plan) {
    p.List? || p.Remove? || p.Edit? || p.Insert?
  }

  // ---------------------------------------------------------------------
  // /get
  // ---------------------------------------------------------------------

  /** `limit` must be an integer in 1..100. */
  predicate LimitAccepted(s: string) {
    Atoi(s).Some? && 0 < Atoi(s).value <= 100
  }

  /** `cursor` and `age` may be missing; when given they must be integers
      that are not negative. */
  predicate OptionalAccepted(s: string) {
    s == "" || (Atoi(s).Some? && 0 <= Atoi(s).value)
  }

  /** The value of an optional non-negative parameter, 0 when it is missing. */
  function OptionalValue(s: string): (v: int)
    requires OptionalAccepted(s)
    ensures 0 <= v && InRange(v)
    ensures s == "" ==> v == 0
  {
    if s == "" then 0 else Atoi(s).value
  }

  /** The `cursor` field of the response, as the handler computes it: the
      request cursor plus the limit, in Go's `int` arithmetic. */
  function ResponseCursor(cursor: int, limit: int): (r: int)
    requires InRange(cursor) && InRange(limit)
    ensures InRange(cursor + limit) ==> r == cursor + limit
  {
    Add(cursor, limit)
  }

  function GetPlan(verb: string, q: Query): (r: Plan)
    ensures verb != MethodGet <==> r == Reject(StatusMethodNotAllowed)
    ensures verb == MethodGet ==>
      (r.List? <==>
        && LimitAccepted(QueryGet(q, "limit"))
        && OptionalAccepted(QueryGet(q, "cursor"))
        && OptionalAccepted(QueryGet(q, "age")))
    ensures verb == MethodGet && !r.List? ==> r == Reject(StatusBadRequest)
    ensures r.List? ==>
      var limit := Atoi(QueryGet(q, "limit")).value;
      var cursor := OptionalValue(QueryGet(q, "cursor"));
      && r.params.limit == limit
      && 0 < limit <= 100
      && r.params.cursor == Some(cursor)
      && 0 <= cursor
      && r.params == Store.NewParams(limit, cursor, OptionalValue(QueryGet(q, "age")),
           QueryGet(q, "name"), QueryGet(q, "surname"), QueryGet(q, "patronymic"),
           QueryGet(q, "gender"), QueryGet(q, "nationality"))
      && r.responseCursor == ResponseCursor(cursor, limit)
  {
    if verb != MethodGet then Reject(StatusMethodNotAllowed)
    else
      var limit := Atoi(QueryGet(q, "limit"));
      if limit.None? || limit.value <= 0 || limit.value > 100 then Reject(StatusBadRequest)
      else
        var cursorStr := QueryGet(q, "cursor");
        var cursor := if cursorStr != "" then Atoi(cursorStr) else Some(0);
        if cursor.None? || cursor.value < 0 then Reject(StatusBadRequest)
        else
          var ageStr := QueryGet(q, "age");
          var age := if ageStr != "" then Atoi(ageStr) else Some(0);
          if age.None? || age.value < 0 then Reject(StatusBadRequest)
          else
            var params := Store.NewParams(limit.value, cursor.value, age.value,
              QueryGet(q, "name"), QueryGet(q, "surname"), QueryGet(q, "patronymic"),
              QueryGet(q, "gender"), QueryGet(q, "nationality"));
            List(params, ResponseCursor(cursor.value, limit.value))
  }

  // ---------------------------------------------------------------------
  // /delete
  // ---------------------------------------------------------------------

  function DeletePlan(verb: string, q: Query): (r: Plan)
    ensures verb != MethodDelete <==> r == Reject(StatusMethodNotAllowed)
    ensures verb == MethodDelete ==> (r.Remove? <==> Atoi(QueryGet(q, "id")).Some?)
    ensures verb == MethodDelete && !r.Remove? ==> r == Reject(StatusBadRequest)
    ensures verb == MethodDelete && QueryGet(q, "id") == "" ==> r == Reject(StatusBadRequest)
    ensures r.Remove? ==> Atoi(QueryGet(q, "id")) == Some(r.id)
  {
    if verb != MethodDelete then Reject(StatusMethodNotAllowed)
    else
      var id := QueryGet(q, "id");
      if id == "" then Reject(StatusBadRequest)
      else
        match Atoi(id)
        case None => Reject(StatusBadRequest)
        case Some(n) => Remove(n)
  }

  // ---------------------------------------------------------------------
  // /update
  // ---------------------------------------------------------------------

  /** Every one of the six attributes of the body is written, empty or not. */
  function UpdatePlan(verb: string, body: Option<UpdateRequest>): (r: Plan)
    ensures verb != MethodPut && verb != MethodPatch <==> r == Reject(StatusMethodNotAllowed)
    ensures (verb == MethodPut || verb == MethodPatch) ==>
      (body.None? <==> r == Reject(StatusBadRequest))
    ensures r.Edit? <==> (verb == MethodPut || verb == MethodPatch) && body.Some?
    ensures r.Edit? ==>
      var b := body.value;
      && r.person.id == b.id
      && r.person.name == b.name
      && r.person.surname == b.surname
      && r.person.patronymic == b.patronymic
      && r.person.age == b.age
      && r.person.gender == b.gender
      && r.person.nationality == b.nationality
  {
    if verb != MethodPut && verb != MethodPatch then Reject(StatusMethodNotAllowed)
    else
      match body
      case None => Reject(StatusBadRequest)
      case Some(b) =>
        Edit(Store.Person(b.id, b.name, b.surname, b.patronymic, b.age, b.gender, b.nationality))
  }

  // ---------------------------------------------------------------------
  // /add
  // ---------------------------------------------------------------------

  /** Enriches the body's names and plans to save the result. A failed
      enrichment ends the request before any store call. */
  function AddPlan(verb: string, body: Option<AddRequest>, svc: Enrich.Services): (r: Plan)
    ensures verb != MethodPost <==> r == Reject(StatusMethodNotAllowed)
    ensures verb == MethodPost ==> (body.None? <==> r == Reject(StatusBadRequest))
    ensures r.Insert? || r.Reject? || r.Abort?
    ensures r.Insert? <==>
      verb == MethodPost && body.Some? &&
      Enrich.EnrichPerson(svc, body.value.name, body.value.surname, body.value.patronymic).person.Success?
    ensures verb == MethodPost && body.Some? ==>
      var e := Enrich.EnrichPerson(svc, body.value.name, body.value.surname, body.value.patronymic).person;
      && (e.Failure? && e.error.Returned? <==> r == Reject(StatusInternalServerError))
      && (e.Failure? && e.error.IndexPanic? <==> r == Abort)
    ensures r.Insert? ==>
      var b := body.value;
      && r.person.name == b.name
      && r.person.surname == b.surname
      && r.person.patronymic == b.patronymic
      && Enrich.GetAge(svc, b.name) == Success(r.person.age)
      && Enrich.GetGender(svc, b.name) == Success(r.person.gender)
      && Enrich.GetNationality(svc, b.name) == Success(r.person.nationality)
  {
    if verb != MethodPost then Reject(StatusMethodNotAllowed)
    else
      match body
      case None => Reject(StatusBadRequest)
      case Some(b) =>
        match Enrich.EnrichPerson(svc, b.name, b.surname, b.patronymic).person
        case Failure(Returned(_)) => Reject(StatusInternalServerError)
        case Failure(IndexPanic) => Abort
        case Success(p) =>
          Insert(Store.Person(0, p.name, p.surname, p.patronymic, p.age, p.gender, p.nationality))
  }

  // ---------------------------------------------------------------------
  // Running the planned store call
  // ---------------------------------------------------------------------

  /** The body of a 200 response. */
  datatype Payload =
    | EmptyBody           // status 200 with nothing written
    | NewId(id: int)
    | Page(cursor: int, people: seq<Store.Person>)

  datatype Response =
    | Error(status: int)
    | Ok(payload: Payload)
    | Dropped             // net/http recovers the panic and closes the connection

  /** Runs the planned call. `fault.query` is the driver error of the one
      statement the call executes, `fault.scan` the row-scan errors of a
      `GetPeople`. */
  method Serve(t: Store.Table, plan: Plan, fault: Store.QueryFault) returns (resp: Response, t': Store.Table)
    ensures !StoreCall(plan) ==> t' == t
    ensures plan.Reject? ==> resp == Error(plan.status)
    ensures plan.Abort? ==> resp == Dropped
    ensures StoreCall(plan) ==> resp.Ok? || resp == Error(StatusInternalServerError)
    ensures StoreCall(plan) && fault.query.Some? ==> resp == Error(StatusInternalServerError) && t' == t
    ensures (plan.Remove? || plan.Edit? || plan.Insert?) && fault.query.None? ==> resp.Ok?
    ensures plan.List? ==> t' == t
    // a listing is answered exactly when the query runs and every delivered row scans
    ensures plan.List? ==>
      (resp.Ok? <==>
        && fault.query.None?
        && Store.AgeBinds(plan.params)
        && 0 <= plan.params.limit
        && forall i :: 0 <= i < Store.Delivered(fault, |Store.Select(t, plan.params)|) ==>
          Store.ScanError(fault, i).None?)
    // a listing answers the rows the stream delivered: the whole page unless it broke
    ensures plan.List? && resp.Ok? ==>
      && 0 <= plan.params.limit
      && var page := Store.Select(t, plan.params);
        resp.payload == Page(plan.responseCursor, page[..Store.Delivered(fault, |page|)])
    ensures plan.List? && resp.Ok? && !Store.Breaks(fault, |Store.Select(t, plan.params)|) ==>
      resp.payload == Page(plan.responseCursor, Store.Select(t, plan.params))
    ensures plan.Remove? && resp.Ok? ==>
      resp.payload == EmptyBody && Store.DeletePerson(t, plan.id, None) == Success(t')
    ensures plan.Edit? && resp.Ok? ==>
      resp.payload == EmptyBody && Store.UpdatePerson(t, plan.person, None) == Success(t')
    ensures plan.Insert? && resp.Ok? ==>
      && resp.payload == NewId(t.nextId)
      && t'.rows == t.rows + [Store.WithId(plan.person, t.nextId)]
      && t'.nextId == t.nextId + 1
    ensures !plan.Insert? ==> t'.nextId == t.nextId
    ensures Store.Valid(t) ==> Store.Valid(t')
  {
    match plan
    case Reject(status) =>
      return Error(status), t;
    case Abort =>
      return Dropped, t;
    case List(params, cursor) =>
      var people := Store.GetPeople(t, params, fault);
      if people.Failure? {
        return Error(StatusInternalServerError), t;
      }
      return Ok(Page(cursor, people.value)), t;
    case Remove(id) =>
      var r := Store.DeletePerson(t, id, fault.query);
      if r.Failure? {
        return Error(StatusInternalServerError), t;
      }
      return Ok(EmptyBody), r.value;
    case Edit(person) =>
      var r := Store.UpdatePerson(t, person, fault.query);
      if r.Failure? {
        return Error(StatusInternalServerError), t;
      }
      return Ok(EmptyBody), r.value;
    case Insert(person) =>
      var r := Store.SavePerson(t, person, fault.query);
      if r.Failure? {
        return Error(StatusInternalServerError), t;
      }
      return Ok(NewId(r.value.id)), r.value.table;
  }

  // ---------------------------------------------------------------------
  // Whole requests
  // ---------------------------------------------------------------------

  /** The checks `/get` makes before it calls the store. */
  predicate GetAccepted(verb: string, q: Query) {
    && verb == MethodGet
    && LimitAccepted(QueryGet(q, "limit"))
    && OptionalAccepted(QueryGet(q, "cursor"))
    && OptionalAccepted(QueryGet(q, "age"))
  }

  /** The handler takes any non-negative 64-bit age, but the store binds it
      as a PostgreSQL `INTEGER`. */
  predicate AgeFits(q: Query)
    requires OptionalAccepted(QueryGet(q, "age"))
  {
    Store.FitsInteger(OptionalValue(QueryGet(q, "age")))
  }

  /** What a `/get` query asks of a row, read straight off the query string:
      an id above the cursor, and equality with every filter given a value
      other than "" (for `age`, other than 0). */
  predicate QueryAdmits(q: Query, x: Store.Person)
    requires OptionalAccepted(QueryGet(q, "cursor")) && OptionalAccepted(QueryGet(q, "age"))
  {
    var age := OptionalValue(QueryGet(q, "age"));
    && x.id > OptionalValue(QueryGet(q, "cursor"))
    && (QueryGet(q, "name") == "" || x.name == QueryGet(q, "name"))
    && (QueryGet(q, "surname") == "" || x.surname == QueryGet(q, "surname"))
    && (QueryGet(q, "patronymic") == "" || x.patronymic == QueryGet(q, "patronymic"))
    && (age == 0 || x.age == age)
    && (QueryGet(q, "gender") == "" || x.gender == QueryGet(q, "gender"))
    && (QueryGet(q, "nationality") == "" || x.nationality == QueryGet(q, "nationality"))
  }

  /** `/get` from request to response. An answered page holds table rows the
      query asks for, in id order. Unless the row stream broke, they are the
      first `limit` such rows: a row the query asks for that is missing from
      the page lies beyond a full page. */
  method GetRequest(t: Store.Table, verb: string, q: Query, fault: Store.QueryFault)
    returns (resp: Response, t': Store.Table)
    ensures t' == t
    ensures !GetAccepted(verb, q) ==> resp.Error?
    ensures GetAccepted(verb, q) && AgeFits(q) && fault.query.None? && fault.scan == [] ==> resp.Ok?
    ensures GetAccepted(verb, q) && !AgeFits(q) ==> resp == Error(StatusInternalServerError)
    ensures resp.Ok? ==> GetAccepted(verb, q) && resp.payload.Page?
    ensures resp.Ok? && GetAccepted(verb, q) ==>
      && resp.payload.Page?
      && resp.payload.cursor
        == ResponseCursor(OptionalValue(QueryGet(q, "cursor")), Atoi(QueryGet(q, "limit")).value)
      && forall i :: 0 <= i < |resp.payload.people| ==>
        resp.payload.people[i] in t.rows && QueryAdmits(q, resp.payload.people[i])
    ensures resp.Ok? && resp.payload.Page? && Store.Valid(t) ==> Store.Ascending(resp.payload.people)
    ensures resp.Ok? && resp.payload.Page? && GetAccepted(verb, q) && Store.Valid(t) && fault.broken.None? ==>
      forall x :: x in t.rows && QueryAdmits(q, x) && x !in resp.payload.people ==>
        && |resp.payload.people| == Atoi(QueryGet(q, "limit")).value
        && Pagination.Last(resp.payload.people).id < x.id
  {
    var plan := GetPlan(verb, q);
    resp, t' := Serve(t, plan, fault);
    if resp.Ok? {
      var p := plan.params;
      var all := Store.Select(t, p);
      var page := resp.payload.people;
      assert page == all[..Store.Delivered(fault, |all|)];
      forall x
        ensures Store.Matches(x, p) <==> QueryAdmits(q, x)
      {
        Store.NewParamsWhere(p.limit, OptionalValue(QueryGet(q, "cursor")),
          OptionalValue(QueryGet(q, "age")),
          QueryGet(q, "name"), QueryGet(q, "surname"), QueryGet(q, "patronymic"),
          QueryGet(q, "gender"), QueryGet(q, "nationality"), x);
      }
      assert forall i :: 0 <= i < |page| ==> page[i] == all[i];
      if Store.Valid(t) && fault.broken.None? {
        assert page == all;
        forall x | x in t.rows && QueryAdmits(q, x) && x !in page
          ensures |page| == p.limit && Pagination.Last(page).id < x.id
        {
          Pagination.SelectSkipsNothing(t, p, x);
        }
      }
    }
  }

  /** `/delete` from request to response. With a well-formed id and no
      driver error exactly the rows with another id remain, and the answer
      is 200 whether or not a row had that id. */
  method DeleteRequest(t: Store.Table, verb: string, q: Query, fault: Store.QueryFault)
    returns (resp: Response, t': Store.Table)
    ensures verb != MethodDelete ==> resp == Error(StatusMethodNotAllowed) && t' == t
    ensures verb == MethodDelete && Atoi(QueryGet(q, "id")).None? ==>
      resp == Error(StatusBadRequest) && t' == t
    ensures fault.query.Some? ==> resp.Error? && t' == t
    ensures var id := Atoi(QueryGet(q, "id"));
      verb == MethodDelete && id.Some? && fault.query.None? ==>
        && resp == Ok(EmptyBody)
        && t'.nextId == t.nextId
        && (forall x :: x in t'.rows <==> x in t.rows && x.id != id.value)
        && Store.DeletePerson(t, id.value, None) == Success(t')
  {
    var plan := DeletePlan(verb, q);
    resp, t' := Serve(t, plan, fault);
  }

  /** Sending the same `/delete` twice: the second answers like the first and
      changes nothing more. */
  method DeleteRepeated(t: Store.Table, q: Query)
    returns (first: Response, second: Response, once: Store.Table, twice: Store.Table)
    ensures first == second && once == twice
    ensures Atoi(QueryGet(q, "id")).Some? ==> first == Ok(EmptyBody)
    ensures Atoi(QueryGet(q, "id")).None? ==> first == Error(StatusBadRequest) && once == t
  {
    var noFault := Store.QueryFault(None, [], None);
    first, once := DeleteRequest(t, MethodDelete, q, noFault);
    second, twice := DeleteRequest(once, MethodDelete, q, noFault);
    var id := Atoi(QueryGet(q, "id"));
    if id.Some? {
      Pagination.DeleteIdempotent(t, id.value);
    }
  }

  /** `/get?limit=1&age=2147483648`: the handler accepts the age, but it does
      not fit the `INTEGER` the store binds it as, so the answer is 500 on
      any table and whatever the rows would have been. */
  method AgeBeyondIntegerFails(t: Store.Table, fault: Store.QueryFault) returns (resp: Response)
    ensures resp == Error(StatusInternalServerError)
  {
    AtoiItoa(1);
    AtoiItoa(0x8000_0000);
    var q: Query := map["limit" := [Itoa(1)], "age" := [Itoa(0x8000_0000)]];
    assert QueryGet(q, "cursor") == "";
    var t';
    resp, t' := GetRequest(t, MethodGet, q, fault);
  }

  /** An `/add` whose nationality lookup answers with no country guess never
      reaches the store: the handler panics and the request is dropped. */
  lemma EmptyCountryListDropsAdd(b: AddRequest, svc: Enrich.Services)
    requires svc.agify(b.name).Success? && svc.genderize(b.name).Success?
    requires svc.nationalize(b.name).Success? && svc.nationalize(b.name).value.country == []
    ensures AddPlan(MethodPost, Some(b), svc) == Abort
  {
    Enrich.EmptyCountryListPanics(svc, b.name, b.surname, b.patronymic);
  }

  /** A request without `limit` is refused with 400 before any store call. */
  lemma MissingLimitRejected(q: Query)
    requires "limit" !in q
    ensures GetPlan(MethodGet, q) == Reject(StatusBadRequest)
  {
  }

  /** `/update` writes all six attributes of the body into the row with the
      body's id, empty strings and zero age included. */
  lemma UpdateOverwritesEveryField(t: Store.Table, verb: string, b: UpdateRequest, i: nat)
    requires verb == MethodPut || verb == MethodPatch
    requires i < |t.rows| && t.rows[i].id == b.id
    ensures var r := Store.UpdatePerson(t, UpdatePlan(verb, Some(b)).person, None);
      r.Success? &&
      r.value.rows[i] == Store.Person(b.id, b.name, b.surname, b.patronymic, b.age, b.gender, b.nationality)
  {
  }
}

=== FILE: cursor.dfy ===
/** The `cursor` that `/get` hands back for the next page.

    The handler answers with the request cursor plus the limit, while the
    store pages by id (`id > cursor`). The two agree only when the matching
    ids are exactly cursor+1, cursor+2, ...; with a filter or after a delete
    they do not, and the next page repeats rows. This module shows both
    sides: what the cursor as written guarantees and where it fails, and the
    keyset cursor (the last id on the page) with the chaining property the
    store's paging is built for. */
module Cursor {
  import opened Wrappers
  import opened GoInt
  import opened Store
  import opened Pagination
  import Api

  /** Ids above `c` that strictly ascend climb by at least one per row. */
  lemma {:induction false} IdsClimb(page: seq<Person>, c: int, k: nat)
    requires Ascending(page)
    requires forall i :: 0 <= i < |page| ==> c < page[i].id
    requires k < |page|
    ensures c + k + 1 <= page[k].id
  {
    if k > 0 {
      IdsClimb(page, c, k - 1);
    }
  }

  /** The cursor as written never skips a row: every matching row that the
      page leaves out has an id above `cursor + limit`, so the next request
      can still reach it. */
  lemma ResponseCursorNeverSkips(t: Table, p: GetParams, x: Person)
    requires Valid(t) && 0 <= p.limit && p.cursor.Some?
    requires InRange(p.cursor.value) && InRange(p.limit) && InRange(p.cursor.value + p.limit)
    requires x in t.rows && Matches(x, p) && x !in Select(t, p)
    ensures Api.ResponseCursor(p.cursor.value, p.limit) < x.id
  {
    SelectSkipsNothing(t, p, x);
    var page := Select(t, p);
    if 0 < p.limit {
      IdsClimb(page, p.cursor.value, |page| - 1);
    }
  }

  const Ivan: Person := Person(1, "Ivan", "Petrov", "Sergeevich", 35, "male", "russian")
  const Elena: Person := Person(2, "Elena", "Ivanova", "", 61, "female", "kazakh")

  /** The cursor as written repeats rows. Filtering by surname with limit 1
      from cursor 0 returns Elena (id 2) and answers cursor 0 + 1 = 1; asking
      again from cursor 1 returns Elena a second time. */
  lemma ResponseCursorRepeatsRows()
    ensures var t := Table([Ivan, Elena], 3);
      var p := NewParams(1, 0, 0, "", "Ivanova", "", "", "");
      var next := Api.ResponseCursor(0, 1);
      && Valid(t)
      && Select(t, p) == [Elena]
      && next == 1
      && Select(t, p.(cursor := Some(next))) == [Elena]
  {
    var t := Table([Ivan, Elena], 3);
    var p := NewParams(1, 0, 0, "", "Ivanova", "", "", "");
    assert Matching(t, p) == [Elena] by {
      AscendingUnique(Matching(t, p), [Elena]);
    }
    assert Matching(t, p.(cursor := Some(1))) == [Elena] by {
      AscendingUnique(Matching(t, p.(cursor := Some(1))), [Elena]);
    }
  }

  /** The keyset cursor: the id of the last row on the page, or the request
      cursor again when the page is empty. It is never below the request
      cursor and, on a page in id order, no row of the page lies above it,
      so `id > r` leaves out every row already served. */
  function KeysetCursor(cursor: int, page: seq<Person>): (r: int)
    ensures |page| == 0 ==> r == cursor
    ensures 0 < |page| ==> r == Last(page).id
    ensures (forall i :: 0 <= i < |page| ==> cursor < page[i].id) ==> cursor <= r
    ensures Ascending(page) ==> forall i :: 0 <= i < |page| ==> page[i].id <= r
  {
    if |page| == 0 then cursor else Last(page).id
  }

  /** With the keyset cursor, two consecutive pages are exactly the one page
      with the summed limit, and the second page starts after the first. */
  lemma KeysetCursorChains(t: Table, p: GetParams, c: int, l1: nat, l2: nat)
    requires Valid(t) && p.cursor == Some(c)
    ensures var first := Select(t, p.(limit := l1));
      var second := Select(t, p.(limit := l2, cursor := Some(KeysetCursor(c, first))));
      && first + second == Select(t, p.(limit := l1 + l2))
      && forall i, j :: 0 <= i < |first| && 0 <= j < |second| ==> first[i].id < second[j].id
  {
    var first := Select(t, p.(limit := l1));
    var second := Select(t, p.(limit := l2, cursor := Some(KeysetCursor(c, first))));
    KeysetPagesJoin(t, p, c, l1, l2);
    AscendingSplit(first, second);
  }

  lemma KeysetPagesJoin(t: Table, p: GetParams, c: int, l1: nat, l2: nat)
    requires Valid(t) && p.cursor == Some(c)
    ensures var first := Select(t, p.(limit := l1));
      first + Select(t, p.(limit := l2, cursor := Some(KeysetCursor(c, first))))
        == Select(t, p.(limit := l1 + l2))
  {
    if 0 < |Select(t, p.(limit := l1))| {
      PagesChain(t, p, l1, l2);
    } else {
      EmptyFirstPage(t, p, l1, l2);
      assert p.(limit := l2, cursor := Some(c)) == p.(limit := l2);
    }
  }

  /** When the first page is empty the larger limit finds nothing more than
      the second limit does. */
  lemma EmptyFirstPage(t: Table, p: GetParams, l1: nat, l2: nat)
    requires |Select(t, p.(limit := l1))| == 0
    ensures Select(t, p.(limit := l2)) == Select(t, p.(limit := l1 + l2))
  {
    SelectIsPrefix(t, p, l1);
    SelectIsPrefix(t, p, l2);
    SelectIsPrefix(t, p, l1 + l2);
  }

  /** In an ascending concatenation every row of the front precedes every
      row of the back. */
  lemma AscendingSplit(front: seq<Person>, back: seq<Person>)
    requires Ascending(front + back)
    ensures forall i, j :: 0 <= i < |front| && 0 <= j < |back| ==> front[i].id < back[j].id
  {
    var whole := front + back;
    forall i, j | 0 <= i < |front| && 0 <= j < |back|
      ensures front[i].id < back[j].id
    {
      assert whole[i] == front[i] && whole[|front| + j] == back[j];
    }
  }

  /** An illustration for the one-row page of the `/get` handler test (one
      person with id 1, cursor 0, limit 5). This handler's cursor is 5. The
      test reads a `NextCursor` field this handler's response does not have,
      so it was written for another version of the handler. It expects 1,
      the keyset cursor. */
  lemma HandlerTestExpectsKeysetCursor()
    ensures Api.ResponseCursor(0, 5) == 5
    ensures KeysetCursor(0, [Person(1, "Ivan", "Ivanov", "Ivanovich", 30, "male", "russian")]) == 1
  {
  }
}

=== FILE: enrich.dfy ===
/** `enrich.EnrichPerson`: three lookups by first name, run one after the
    other (age, then gender, then nationality), stopping at the first that
    fails.

    Each external service is a function from the name to either the decoded
    JSON response or the error raised on the way (URL parsing, building the
    request, transport including the context deadline, JSON decoding). What
    the model keeps of each lookup is the step that picks the answer out of
    the decoded response. */
module Enrich {
  import opened Wrappers

  datatype Person = Person(
    name: string,
    surname: string,
    patronymic: string,
    age: int,
    gender: string,
    nationality: string)

  /** The decoded bodies of the three services; the `probability` fields are
      not modelled. */
  datatype AgeResponse = AgeResponse(count: int, name: string, age: int)
  datatype GenderResponse = GenderResponse(count: int, name: string, gender: string)
  datatype CountryGuess = CountryGuess(countryId: string)
  datatype NationalityResponse = NationalityResponse(count: int, name: string, country: seq<CountryGuess>)

  datatype LookupError = LookupError(message: string)

  /** How a lookup can fail: it returns an error, or (nationality only) it
      indexes an empty country list and the goroutine panics. */
  datatype Failure = Returned(error: LookupError) | IndexPanic

  datatype Services = Services(
    agify: string -> Result<AgeResponse, LookupError>,
    genderize: string -> Result<GenderResponse, LookupError>,
    nationalize: string -> Result<NationalityResponse, LookupError>)

  datatype Lookup = AgeLookup | GenderLookup | NationalityLookup

  /** The order in which `EnrichPerson` issues the lookups. */
  const Order: seq<Lookup> := [AgeLookup, GenderLookup, NationalityLookup]

  /** `getAge`: the `age` field of the decoded response. */
  function GetAge(svc: Services, name: string): (r: Result<int, Failure>)
    ensures r.Success? <==> svc.agify(name).Success?
    ensures r.Success? ==> r.value == svc.agify(name).value.age
    ensures r.Failure? ==> r.error == Returned(svc.agify(name).error)
  {
    match svc.agify(name)
    case Success(resp) => Success(resp.age)
    case Failure(e) => Failure(Returned(e))
  }

  /** `getGender`: the `gender` field of the decoded response. */
  function GetGender(svc: Services, name: string): (r: Result<string, Failure>)
    ensures r.Success? <==> svc.genderize(name).Success?
    ensures r.Success? ==> r.value == svc.genderize(name).value.gender
    ensures r.Failure? ==> r.error == Returned(svc.genderize(name).error)
  {
    match svc.genderize(name)
    case Success(resp) => Success(resp.gender)
    case Failure(e) => Failure(Returned(e))
  }

  /** `getNationality`: the country id of the first (most probable) guess; an
      empty guess list is indexed anyway, which panics. */
  function GetNationality(svc: Services, name: string): (r: Result<string, Failure>)
    ensures r.Success? <==> svc.nationalize(name).Success? && 0 < |svc.nationalize(name).value.country|
    ensures r.Success? ==> r.value == svc.nationalize(name).value.country[0].countryId
    ensures svc.nationalize(name).Failure? ==> r == Failure(Returned(svc.nationalize(name).error))
    ensures svc.nationalize(name).Success? && |svc.nationalize(name).value.country| == 0 ==>
      r == Failure(IndexPanic)
  {
    match svc.nationalize(name)
    case Failure(e) => Failure(Returned(e))
    case Success(resp) =>
      if |resp.country| == 0 then Failure(IndexPanic) else Success(resp.country[0].countryId)
  }

  /** The failure of one lookup for `name`, if it fails. */
  function FailureOf(svc: Services, name: string, l: Lookup): Option<Failure> {
    match l
    case AgeLookup => if GetAge(svc, name).Failure? then Some(GetAge(svc, name).error) else None
    case GenderLookup => if GetGender(svc, name).Failure? then Some(GetGender(svc, name).error) else None
    case NationalityLookup =>
      if GetNationality(svc, name).Failure? then Some(GetNationality(svc, name).error) else None
  }

  /** The result of `EnrichPerson` together with the lookups it issued. */
  datatype Enrichment = Enrichment(person: Result<Person, Failure>, issued: seq<Lookup>)

  function EnrichPerson(svc: Services, name: string, surname: string, patronymic: string): (r: Enrichment)
    // the lookups run in the fixed order and stop at the first failure
    ensures 0 < |r.issued| <= |Order| && r.issued == Order[..|r.issued|]
    ensures forall i :: 0 <= i < |r.issued| - 1 ==> FailureOf(svc, name, r.issued[i]).None?
    ensures r.person.Failure? ==> FailureOf(svc, name, r.issued[|r.issued| - 1]) == Some(r.person.error)
    // all or nothing
    ensures r.person.Success? <==> forall l :: FailureOf(svc, name, l).None?
    ensures r.person.Success? ==> |r.issued| == |Order|
    // on success every field comes from the input or from its lookup
    ensures r.person.Success? ==>
      && r.person.value.name == name
      && r.person.value.surname == surname
      && r.person.value.patronymic == patronymic
      && GetAge(svc, name) == Success(r.person.value.age)
      && GetGender(svc, name) == Success(r.person.value.gender)
      && GetNationality(svc, name) == Success(r.person.value.nationality)
  {
    match GetAge(svc, name)
    case Failure(e) => Enrichment(Failure(e), [AgeLookup])
    case Success(age) =>
      match GetGender(svc, name)
      case Failure(e) => Enrichment(Failure(e), [AgeLookup, GenderLookup])
      case Success(gender) =>
        match GetNationality(svc, name)
        case Failure(e) => Enrichment(Failure(e), Order)
        case Success(nationality) =>
          Enrichment(Success(Person(name, surname, patronymic, age, gender, nationality)), Order)
  }

  /** Services whose responses carry null `age` and `gender` and one guess
      with a null `country_id`; the null fields decode to Go's zero values. */
  function NullAttributes(): Services {
    Services(
      n => Success(AgeResponse(0, n, 0)),
      n => Success(GenderResponse(0, n, "")),
      n => Success(NationalityResponse(0, n, [CountryGuess("")])))
  }

  /** Success does not mean the attributes are meaningful: zero values decoded
      from null fields pass through as a successful enrichment, as long as the
      country list holds a guess. */
  lemma ZeroValuesPassThrough(name: string)
    ensures EnrichPerson(NullAttributes(), name, "", "").person == Success(Person(name, "", "", 0, "", ""))
  {
  }

  /** A null or empty country list decodes to an empty slice, and indexing it
      panics: the enrichment fails with `IndexPanic` even though every lookup
      succeeded. */
  lemma EmptyCountryListPanics(svc: Services, name: string, surname: string, patronymic: string)
    requires svc.agify(name).Success? && svc.genderize(name).Success?
    requires svc.nationalize(name).Success? && svc.nationalize(name).value.country == []
    ensures EnrichPerson(svc, name, surname, patronymic).person == Failure(IndexPanic)
  {
  }

  /** When the age lookup fails nothing else is asked and its error is the
      result, whatever the other services would have said. */
  lemma AgeFailureStopsAll(svc: Services, name: string, surname: string, patronymic: string)
    requires svc.agify(name).Failure?
    ensures EnrichPerson(svc, name, surname, patronymic)
      == Enrichment(Failure(Returned(svc.agify(name).error)), [AgeLookup])
  {
  }
}

=== FILE: goint.dfy ===
/** Go's machine integers as the handlers use them: `int` is 64 bits wide,
    `+` wraps around, and `strconv.Atoi` accepts an optional sign followed by
    decimal digits whose value fits in 64 bits. */
module GoInt {
  import opened Wrappers

  const MinInt: int := -0x8000_0000_0000_0000
  const MaxInt: int := 0x7fff_ffff_ffff_ffff
  const Modulus: int := 0x1_0000_0000_0000_0000

  predicate InRange(x: int) {
    MinInt <= x <= MaxInt
  }

  /** Two's-complement wrap-around of a mathematical integer into Go's `int`. */
  function Wrap(x: int): (r: int)
    ensures InRange(r)
    ensures InRange(x) ==> r == x
    ensures (x - r) % Modulus == 0
  {
    (x - MinInt) % Modulus + MinInt
  }

  /** Go's `a + b` on `int`. */
  function Add(a: int, b: int): (r: int)
    requires InRange(a) && InRange(b)
    ensures InRange(r)
    ensures InRange(a + b) ==> r == a + b
    ensures MaxInt < a + b ==> r == a + b - Modulus
    ensures a + b < MinInt ==> r == a + b + Modulus
  {
    Wrap(a + b)
  }

  predicate IsDigit(c: char) {
    '0' <= c <= '9'
  }

  predicate AllDigits(s: string) {
    forall i :: 0 <= i < |s| ==> IsDigit(s[i])
  }

  /** The decimal syntax `strconv.Atoi` accepts: an optional sign and at
      least one digit, nothing else (no spaces, no underscores). */
  predicate Decimal(s: string) {
    if 0 < |s| && (s[0] == '+' || s[0] == '-') then 1 < |s| && AllDigits(s[1..])
    else 0 < |s| && AllDigits(s)
  }

  function DigitValue(c: char): (r: nat)
    requires IsDigit(c)
    ensures r < 10
  {
    (c as int) - ('0' as int)
  }

  function DigitChar(d: nat): (c: char)
    requires d < 10
    ensures IsDigit(c) && DigitValue(c) == d
  {
    (('0' as int) + d) as char
  }

  /** Value of a digit string, most significant digit first. */
  function DigitsValue(s: string): nat
    requires AllDigits(s)
  {
    if |s| == 0 then 0 else 10 * DigitsValue(s[..|s| - 1]) + DigitValue(s[|s| - 1])
  }

  /** The value a decimal string denotes, before the range check. */
  function DecimalValue(s: string): int
    requires Decimal(s)
  {
    if s[0] == '-' then 0 - DigitsValue(s[1..])
    else if s[0] == '+' then DigitsValue(s[1..])
    else DigitsValue(s)
  }

  /** `strconv.Atoi`: `None` stands for the returned syntax or range error. */
  function Atoi(s: string): (r: Option<int>)
    ensures r.Some? <==> Decimal(s) && InRange(DecimalValue(s))
    ensures r.Some? ==> r.value == DecimalValue(s) && InRange(r.value)
    ensures s == "" ==> r.None?
  {
    if Decimal(s) && InRange(DecimalValue(s)) then Some(DecimalValue(s)) else None
  }

  /** `strconv.Itoa` on a non-negative value. */
  function FormatNat(n: nat): (s: string)
    ensures 0 < |s| && AllDigits(s)
  {
    if n < 10 then [DigitChar(n)] else FormatNat(n / 10) + [DigitChar(n % 10)]
  }

  /** `strconv.Itoa`. */
  function Itoa(n: int): (s: string)
    ensures Decimal(s)
  {
    if n < 0 then "-" + FormatNat(-n) else FormatNat(n)
  }

  lemma {:induction false} FormatNatValue(n: nat)
    ensures DigitsValue(FormatNat(n)) == n
  {
    var s := FormatNat(n);
    if n >= 10 {
      FormatNatValue(n / 10);
      assert s[..|s| - 1] == FormatNat(n / 10);
    }
  }

  /** Parsing what `Itoa` prints gives back the number, for every `int`. */
  lemma AtoiItoa(n: int)
    requires InRange(n)
    ensures Atoi(Itoa(n)) == Some(n)
  {
    var s := Itoa(n);
    if n < 0 {
      FormatNatValue(-n);
      assert s[1..] == FormatNat(-n);
    } else {
      FormatNatValue(n);
    }
  }
}

=== FILE: pagination.dfy ===
/** Properties of the store operations that relate several calls: keyset
    pagination (what a page contains and how consecutive pages join), id
    assignment across a series of inserts, and idempotence of delete. */
module Pagination {
  import opened Wrappers
  import opened Store

  function Last(page: seq<Person>): Person
    requires 0 < |page|
  {
    page[|page| - 1]
  }

  /** Two id-ascending sequences holding the same rows are empty together
      and otherwise start with the same row. */
  lemma HeadsAgree(a: seq<Person>, b: seq<Person>)
    requires Ascending(a) && Ascending(b)
    requires forall x :: x in a <==> x in b
    ensures |a| == 0 <==> |b| == 0
    ensures 0 < |a| ==> a[0] == b[0]
  {
    if 0 < |b| {
      assert b[0] in a;
    }
    if 0 < |a| {
      assert a[0] in b;
      var j :| 0 <= j < |b| && b[j] == a[0];
      var i :| 0 <= i < |a| && a[i] == b[0];
      assert a[0].id <= a[i].id;
      assert b[0].id <= b[j].id;
    }
  }

  /** Two id-ascending sequences holding the same rows are the same sequence. */
  lemma {:induction false} AscendingUnique(a: seq<Person>, b: seq<Person>)
    requires Ascending(a) && Ascending(b)
    requires forall x :: x in a <==> x in b
    ensures a == b
    decreases |a|
  {
    HeadsAgree(a, b);
    if 0 < |a| {
      TailMembers(a);
      TailMembers(b);
      AscendingUnique(a[1..], b[1..]);
      assert a == [a[0]] + a[1..] && b == [b[0]] + b[1..];
    }
  }

  lemma MatchingUnique(t: Table, p: GetParams, q: GetParams)
    requires forall x :: Matches(x, p) <==> Matches(x, q)
    ensures Matching(t, p) == Matching(t, q)
  {
    KeepSame(t.rows, Admitted(p), Admitted(q));
  }

  lemma {:induction false} KeepSame(rows: seq<Person>, c: Criterion, d: Criterion)
    requires forall x :: Holds(c, x) == Holds(d, x)
    ensures Keep(rows, c) == Keep(rows, d)
  {
    if |rows| > 0 {
      KeepSame(rows[1..], c, d);
    }
  }

  /** A page is the first `limit` matching rows: every matching row that is
      not on the page comes after the page's last row, and a short page holds
      every matching row. */
  lemma SelectSkipsNothing(t: Table, p: GetParams, x: Person)
    requires Valid(t) && 0 <= p.limit
    requires x in t.rows && Matches(x, p)
    ensures |Select(t, p)| == Min(p.limit, |Matching(t, p)|)
    ensures x !in Select(t, p) ==>
      |Select(t, p)| == p.limit && (p.limit == 0 || Last(Select(t, p)).id < x.id)
  {
    var all := Matching(t, p);
    var page := Select(t, p);
    assert page == all[..Min(p.limit, |all|)];
    if x !in page {
      var j :| 0 <= j < |all| && all[j] == x;
      assert j >= |page|;
      if 0 < p.limit {
        assert Last(page) == all[|page| - 1];
      }
    }
  }

  /** With no filter and no cursor the store simply returns the first
      `limit` rows: an absent filter constrains nothing. */
  lemma AbsentFiltersAdmitAll(t: Table, limit: nat)
    ensures Select(t, GetParams(limit, None, None, None, None, None, None, None))
      == t.rows[..Min(limit, |t.rows|)]
  {
  }

  /** Within the rows matching `p`, those with an id above the page's last
      id are exactly the rows after the page. */
  lemma {:induction false} NextPageMatching(t: Table, p: GetParams, n: nat)
    requires Valid(t)
    requires 0 < n <= |Matching(t, p)|
    ensures Matching(t, p.(cursor := Some(Matching(t, p)[n - 1].id))) == Matching(t, p)[n..]
  {
    var all := Matching(t, p);
    var k := all[n - 1].id;
    var q := p.(cursor := Some(k));
    assert all[n - 1] in all;
    forall x
      ensures x in Matching(t, q) <==> x in all[n..]
    {
      if x in all[n..] {
        var j :| n <= j < |all| && all[j] == x;
        assert all[j].id > k;
        assert x in all && Matches(x, p);
        assert Matches(x, q);
      }
      if x in Matching(t, q) {
        assert x in t.rows && Matches(x, q);
        assert Matches(all[n - 1], p);
        assert Matches(x, p);
        assert x in all;
        var j :| 0 <= j < |all| && all[j] == x;
        assert j >= n;
        assert all[n..][j - n] == x;
      }
    }
    AscendingUnique(Matching(t, q), all[n..]);
  }

  /** A page is the prefix of the matching rows the limit allows. */
  lemma SelectIsPrefix(t: Table, p: GetParams, limit: nat)
    ensures Select(t, p.(limit := limit)) == Matching(t, p)[..Min(limit, |Matching(t, p)|)]
  {
    MatchingUnique(t, p.(limit := limit), p);
  }

  lemma PrefixesJoin(all: seq<Person>, l1: nat, l2: nat)
    ensures var n := Min(l1, |all|);
      all[..n] + all[n..][..Min(l2, |all| - n)] == all[..Min(l1 + l2, |all|)]
  {
  }

  /** The page after a non-empty first page, as a slice of the matching
      rows. */
  lemma SecondPage(t: Table, p: GetParams, l1: nat, l2: nat)
    requires Valid(t)
    requires 0 < |Select(t, p.(limit := l1))|
    ensures var all := Matching(t, p);
      var first := Select(t, p.(limit := l1));
      && |first| == Min(l1, |all|)
      && Select(t, p.(limit := l2, cursor := Some(Last(first).id)))
        == all[Min(l1, |all|)..][..Min(l2, |all| - Min(l1, |all|))]
  {
    var all := Matching(t, p);
    var first := Select(t, p.(limit := l1));
    SelectIsPrefix(t, p, l1);
    var n := |first|;
    assert Last(first) == all[n - 1];
    var q := p.(cursor := Some(all[n - 1].id));
    NextPageMatching(t, p, n);
    SelectIsPrefix(t, q, l2);
    assert q.(limit := l2) == p.(limit := l2, cursor := Some(Last(first).id));
  }

  /** Keyset pagination chains: a page of `l1` rows followed by a page of
      `l2` rows whose cursor is the first page's last id is the page of
      `l1 + l2` rows. */
  lemma PagesChain(t: Table, p: GetParams, l1: nat, l2: nat)
    requires Valid(t)
    requires 0 < |Select(t, p.(limit := l1))|
    ensures var first := Select(t, p.(limit := l1));
      first + Select(t, p.(limit := l2, cursor := Some(Last(first).id)))
        == Select(t, p.(limit := l1 + l2))
  {
    SelectIsPrefix(t, p, l1);
    SelectIsPrefix(t, p, l1 + l2);
    SecondPage(t, p, l1, l2);
    PrefixesJoin(Matching(t, p), l1, l2);
  }

  /** A successful `SavePerson` is `Inserted` under the serial's current
      value, which is what `SaveAll` repeats. */
  lemma SavePersonInserts(t: Table, person: Person)
    ensures SavePerson(t, person, None) == Success(Saved(Inserted(t, person), t.nextId))
  {
  }

  /** A series of successful inserts, in order: `SavePerson` without a fault,
      one person after the other (see `SavePersonInserts`). */
  function SaveAll(t: Table, people: seq<Person>): Table
    decreases |people|
  {
    if |people| == 0 then t else SaveAll(Inserted(t, people[0]), people[1..])
  }

  /** The rows a series of inserts adds when the serial stands at `next`. */
  function Stamped(people: seq<Person>, next: int): (r: seq<Person>)
    ensures |r| == |people|
    decreases |people|
  {
    if |people| == 0 then [] else [WithId(people[0], next)] + Stamped(people[1..], next + 1)
  }

  lemma {:induction false} StampedAt(people: seq<Person>, next: int, i: nat)
    requires i < |people|
    ensures Stamped(people, next)[i] == WithId(people[i], next + i)
    decreases |people|
  {
    if i > 0 {
      StampedAt(people[1..], next + 1, i - 1);
    }
  }

  lemma {:induction false} SaveAllAppends(t: Table, people: seq<Person>)
    ensures SaveAll(t, people) == Table(t.rows + Stamped(people, t.nextId), t.nextId + |people|)
    decreases |people|
  {
    if |people| > 0 {
      var row := WithId(people[0], t.nextId);
      SaveAllAppends(Inserted(t, people[0]), people[1..]);
      assert (t.rows + [row]) + Stamped(people[1..], t.nextId + 1)
        == t.rows + ([row] + Stamped(people[1..], t.nextId + 1));
    }
  }

  /** Inserting into a fresh table hands out the ids 1, 2, 3, ... in
      insertion order and stores every attribute verbatim. */
  lemma SaveFromEmpty(people: seq<Person>)
    ensures var t := SaveAll(Empty, people);
      && |t.rows| == |people|
      && forall i :: 0 <= i < |people| ==>
        t.rows[i].id == i + 1 && SameAttributes(t.rows[i], people[i])
  {
    SaveAllAppends(Empty, people);
    assert SaveAll(Empty, people).rows == Stamped(people, 1);
    forall i | 0 <= i < |people|
      ensures SaveAll(Empty, people).rows[i] == WithId(people[i], i + 1)
    {
      StampedAt(people, 1, i);
    }
  }

  /** A two-row page whose row stream breaks after the first row: the call
      succeeds with the first row alone. */
  method BrokenStreamAnswersShortPage() returns (r: Result<seq<Person>, DbError>)
    ensures r == Success([Person(1, "Ivan", "Petrov", "Sergeevich", 35, "male", "russian")])
  {
    var ivan := Person(1, "Ivan", "Petrov", "Sergeevich", 35, "male", "russian");
    var maria := Person(2, "Maria", "Kuznetsova", "Andreevna", 28, "female", "ukrainian");
    var t := Table([ivan, maria], 3);
    AbsentFiltersAdmitAll(t, 5);
    var p := GetParams(5, None, None, None, None, None, None, None);
    assert Select(t, p) == [ivan, maria];
    var fault := QueryFault(None, [], Some(StreamBreak(1, Driver("connection reset"))));
    assert Delivered(fault, 2) == 1;
    r := GetPeople(t, p, fault);
    assert Select(t, p)[..1] == [ivan];
  }

  /** Deleting an id twice is the same as deleting it once. */
  lemma DeleteIdempotent(t: Table, id: int)
    ensures var once := DeletePerson(t, id, None);
      once.Success? && DeletePerson(once.value, id, None) == once
  {
  }

  /** An update that names an id no row carries is a no-op. */
  lemma UpdateUnknownIsNoop(t: Table, person: Person)
    requires forall i :: 0 <= i < |t.rows| ==> t.rows[i].id != person.id
    ensures UpdatePerson(t, person, None) == Success(t)
  {
  }
}

=== FILE: store.dfy ===
/** The `people` table and the four operations of `store.Storer`.

    The table is the sequence of its rows in ascending `id` order together
    with the next value of the `id` serial; every operation is one atomic SQL
    statement, so each is a pure function from the table before to the table
    after. A `fault` argument stands for the error the database driver may
    report instead of running the statement. */
module Store {
  import opened Wrappers

  datatype Person = Person(
    id: int,
    name: string,
    surname: string,
    patronymic: string,
    age: int,
    gender: string,
    nationality: string)

  /** The same person with another `id`; the six attribute columns are kept. */
  function WithId(p: Person, id: int): (r: Person)
    ensures r.id == id && SameAttributes(r, p)
  {
    p.(id := id)
  }

  predicate SameAttributes(a: Person, b: Person) {
    && a.name == b.name
    && a.surname == b.surname
    && a.patronymic == b.patronymic
    && a.age == b.age
    && a.gender == b.gender
    && a.nationality == b.nationality
  }

  datatype Table = Table(rows: seq<Person>, nextId: int)

  /** A freshly migrated table: no rows, and the serial starts at 1. */
  const Empty: Table := Table([], 1)

  datatype DbError =
    | NegativeLimit        // PostgreSQL refuses `LIMIT` with a negative value
    | OutOfRange           // a parameter cast to `INTEGER` does not fit in 32 bits
    | Driver(message: string)

  predicate Ascending(rows: seq<Person>) {
    forall i, j :: 0 <= i < j < |rows| ==> rows[i].id < rows[j].id
  }

  /** Ids are positive, strictly ascending along the sequence, and below the
      next value of the serial. */
  predicate Valid(t: Table) {
    && 1 <= t.nextId
    && Ascending(t.rows)
    && forall i :: 0 <= i < |t.rows| ==> 1 <= t.rows[i].id < t.nextId
  }

  predicate HasId(rows: seq<Person>, id: int) {
    exists i :: 0 <= i < |rows| && rows[i].id == id
  }

  /** A row test of a `WHERE` clause: the rows a `DELETE` keeps, or the
      rows a `SELECT` admits. */
  datatype Criterion = IdIsNot(id: int) | Admitted(params: GetParams)

  predicate Holds(c: Criterion, x: Person) {
    match c
    case IdIsNot(id) => x.id != id
    case Admitted(p) => Matches(x, p)
  }

  /** The rows of `rows` that satisfy `c`, in their original order. */
  function Keep(rows: seq<Person>, c: Criterion): (r: seq<Person>)
    ensures |r| <= |rows|
    ensures forall x :: x in r <==> x in rows && Holds(c, x)
    ensures (forall i :: 0 <= i < |rows| ==> Holds(c, rows[i])) ==> r == rows
  {
    if |rows| == 0 then []
    else
      var rest := Keep(rows[1..], c);
      if Holds(c, rows[0]) then [rows[0]] + rest else rest
  }

  /** In an ascending sequence the rows after the first are exactly the
      other rows. */
  lemma TailMembers(rows: seq<Person>)
    requires Ascending(rows) && 0 < |rows|
    ensures forall x :: x in rows[1..] <==> x in rows && x != rows[0]
  {
    forall x | x in rows[1..]
      ensures rows[0].id < x.id
    {
      var k :| 0 <= k < |rows[1..]| && rows[1..][k] == x;
      assert rows[k + 1] == x;
    }
    forall x | x in rows && x != rows[0]
      ensures x in rows[1..]
    {
      var k :| 0 <= k < |rows| && rows[k] == x;
      assert rows[1..][k - 1] == x;
    }
  }

  /** A row below every row of an ascending sequence can lead it. */
  lemma ConsAscending(head: Person, rest: seq<Person>)
    requires Ascending(rest)
    requires forall x :: x in rest ==> head.id < x.id
    ensures Ascending([head] + rest)
  {
    var s := [head] + rest;
    forall i, j | 0 <= i < j < |s|
      ensures s[i].id < s[j].id
    {
      assert s[j] == rest[j - 1];
      if i == 0 {
        assert rest[j - 1] in rest;
      } else {
        assert s[i] == rest[i - 1];
      }
    }
  }

  /** Filtering keeps the id order of the rows it keeps. */
  lemma {:induction false} KeepAscending(rows: seq<Person>, c: Criterion)
    requires Ascending(rows)
    ensures Ascending(Keep(rows, c))
  {
    if |rows| > 0 {
      var rest := Keep(rows[1..], c);
      KeepAscending(rows[1..], c);
      if Holds(c, rows[0]) {
        TailMembers(rows);
        ConsAscending(rows[0], rest);
      }
    }
  }

  lemma KeepAscendingIf(rows: seq<Person>, c: Criterion)
    ensures Ascending(rows) ==> Ascending(Keep(rows, c))
  {
    if Ascending(rows) {
      KeepAscending(rows, c);
    }
  }

  // ---------------------------------------------------------------------
  // SavePerson: INSERT ... RETURNING id
  // ---------------------------------------------------------------------

  datatype Saved = Saved(table: Table, id: int)

  /** The table after a successful insert of `person`. */
  function Inserted(t: Table, person: Person): Table {
    Table(t.rows + [WithId(person, t.nextId)], t.nextId + 1)
  }

  /** Appends `person`'s six attributes under the next serial value and
      returns that value; the `id` the caller put in `person` is ignored. */
  function SavePerson(t: Table, person: Person, fault: Option<DbError>): (r: Result<Saved, DbError>)
    ensures fault.Some? <==> r.Failure?
    ensures r.Failure? ==> r.error == fault.value
    ensures r.Success? ==>
      && |r.value.table.rows| == |t.rows| + 1
      && r.value.table.rows[..|t.rows|] == t.rows
      && r.value.table.rows[|t.rows|].id == r.value.id
      && SameAttributes(r.value.table.rows[|t.rows|], person)
    // the id is the serial's current value, and the serial moves on by one
    ensures r.Success? ==> r.value.id == t.nextId && r.value.table.nextId == t.nextId + 1
    ensures r.Success? && Valid(t) ==>
      && Valid(r.value.table)
      && (forall i :: 0 <= i < |t.rows| ==> t.rows[i].id < r.value.id)
      && t.nextId < r.value.table.nextId
  {
    if fault.Some? then Failure(fault.value)
    else
      Success(Saved(Inserted(t, person), t.nextId))
  }

  // ---------------------------------------------------------------------
  // UpdatePerson: UPDATE people SET <all six columns> WHERE id = person.id
  // ---------------------------------------------------------------------

  function Overwrite(rows: seq<Person>, person: Person): (r: seq<Person>)
    ensures |r| == |rows|
    ensures forall i :: 0 <= i < |rows| ==>
      r[i] == (if rows[i].id == person.id then person else rows[i])
  {
    if |rows| == 0 then []
    else [if rows[0].id == person.id then person else rows[0]] + Overwrite(rows[1..], person)
  }

  /** Every row whose id is `person.id` takes all six attributes of `person`;
      every other row is left alone, and an unknown id is not an error. */
  function UpdatePerson(t: Table, person: Person, fault: Option<DbError>): (r: Result<Table, DbError>)
    ensures fault.Some? <==> r.Failure?
    ensures r.Failure? ==> r.error == fault.value
    ensures r.Success? ==>
      && r.value.nextId == t.nextId
      && |r.value.rows| == |t.rows|
      && forall i :: 0 <= i < |t.rows| ==>
        && r.value.rows[i].id == t.rows[i].id
        && (t.rows[i].id == person.id ==> SameAttributes(r.value.rows[i], person))
        && (t.rows[i].id != person.id ==> r.value.rows[i] == t.rows[i])
    ensures r.Success? && !HasId(t.rows, person.id) ==> r.value == t
    ensures r.Success? && Valid(t) ==> Valid(r.value)
  {
    if fault.Some? then Failure(fault.value)
    else Success(Table(Overwrite(t.rows, person), t.nextId))
  }

  // ---------------------------------------------------------------------
  // DeletePerson: DELETE FROM people WHERE id = id
  // ---------------------------------------------------------------------

  /** Removes the row with `id`; deleting an absent id succeeds and changes
      nothing. */
  function DeletePerson(t: Table, id: int, fault: Option<DbError>): (r: Result<Table, DbError>)
    ensures fault.Some? <==> r.Failure?
    ensures r.Failure? ==> r.error == fault.value
    ensures r.Success? ==>
      && r.value.nextId == t.nextId
      && !HasId(r.value.rows, id)
      && forall x :: x in r.value.rows <==> x in t.rows && x.id != id
    ensures r.Success? && !HasId(t.rows, id) ==> r.value == t
    ensures r.Success? && Valid(t) ==> Valid(r.value)
  {
    if fault.Some? then Failure(fault.value)
    else
      var rows := Keep(t.rows, IdIsNot(id));
      KeepAscendingIf(t.rows, IdIsNot(id));
      assert forall i :: 0 <= i < |rows| ==> rows[i] in rows;
      Success(Table(rows, t.nextId))
  }

  // ---------------------------------------------------------------------
  // GetPeople: keyset-paginated, filtered SELECT
  // ---------------------------------------------------------------------

  /** `store.GetParams`: `None` is Go's nil pointer, i.e. "no constraint". */
  datatype GetParams = GetParams(
    limit: int,
    cursor: Option<int>,
    name: Option<string>,
    surname: Option<string>,
    patronymic: Option<string>,
    age: Option<int>,
    gender: Option<string>,
    nationality: Option<string>)

  /** `store.NewParams`: the cursor is always set, the limit is copied, and
      the zero value of each filter ("" or age 0) means "absent". */
  function NewParams(limit: int, cursor: int, age: int,
                     name: string, surname: string, patronymic: string,
                     gender: string, nationality: string): (p: GetParams)
    ensures p.limit == limit && p.cursor == Some(cursor)
    ensures p.name.Some? <==> name != ""
    ensures p.surname.Some? <==> surname != ""
    ensures p.patronymic.Some? <==> patronymic != ""
    ensures p.age.Some? <==> age != 0
    ensures p.gender.Some? <==> gender != ""
    ensures p.nationality.Some? <==> nationality != ""
    ensures p.name.Some? ==> p.name.value == name
    ensures p.surname.Some? ==> p.surname.value == surname
    ensures p.patronymic.Some? ==> p.patronymic.value == patronymic
    ensures p.age.Some? ==> p.age.value == age
    ensures p.gender.Some? ==> p.gender.value == gender
    ensures p.nationality.Some? ==> p.nationality.value == nationality
  {
    GetParams(limit, Some(cursor),
      NonEmpty(name), NonEmpty(surname), NonEmpty(patronymic),
      if age != 0 then Some(age) else None,
      NonEmpty(gender), NonEmpty(nationality))
  }

  /** The `WHERE` clause a `NewParams` value stands for, read off its
      arguments: an id above the cursor, and equality with every argument
      that is not the zero value. */
  lemma NewParamsWhere(limit: int, cursor: int, age: int,
                       name: string, surname: string, patronymic: string,
                       gender: string, nationality: string, x: Person)
    ensures Matches(x, NewParams(limit, cursor, age, name, surname, patronymic, gender, nationality))
      <==>
        && x.id > cursor
        && (name == "" || x.name == name)
        && (surname == "" || x.surname == surname)
        && (patronymic == "" || x.patronymic == patronymic)
        && (age == 0 || x.age == age)
        && (gender == "" || x.gender == gender)
        && (nationality == "" || x.nationality == nationality)
  {
  }

  /** No set of arguments selects rows by an empty patronymic or by age 0:
      with those arguments, a row's patronymic and age play no part. */
  lemma ZeroValuesDoNotFilter(limit: int, cursor: int,
                              name: string, surname: string, gender: string, nationality: string,
                              x: Person, patronymic: string, age: int)
    ensures var p := NewParams(limit, cursor, 0, name, surname, "", gender, nationality);
      Matches(x, p) <==> Matches(x.(patronymic := patronymic, age := age), p)
  {
  }

  function NonEmpty(s: string): Option<string> {
    if s != "" then Some(s) else None
  }

  /** The SQL term `($k IS NULL OR column = $k)`. */
  predicate Admits<T(==)>(filter: Option<T>, value: T) {
    filter.None? || filter.value == value
  }

  /** The `WHERE` clause: `id > cursor` when a cursor is given, and one
      equality per present filter. */
  predicate Matches(x: Person, p: GetParams) {
    && (p.cursor.Some? ==> x.id > p.cursor.value)
    && Admits(p.name, x.name)
    && Admits(p.surname, x.surname)
    && Admits(p.patronymic, x.patronymic)
    && Admits(p.age, x.age)
    && Admits(p.gender, x.gender)
    && Admits(p.nationality, x.nationality)
  }

  /** PostgreSQL's `INTEGER` is 32 bits wide: binding a value outside
      -2^31 .. 2^31-1 to a parameter of that type fails the statement. */
  predicate FitsInteger(v: int) {
    -0x8000_0000 <= v < 0x8000_0000
  }

  /** The age filter is bound as `$5::INTEGER`, so a present age must fit in
      PostgreSQL's `INTEGER`. */
  predicate AgeBinds(p: GetParams) {
    p.age.None? || FitsInteger(p.age.value)
  }

  function Min(a: int, b: int): int {
    if a < b then a else b
  }

  /** The rows of the table the `WHERE` clause admits, in id order. */
  function Matching(t: Table, p: GetParams): (r: seq<Person>)
    ensures forall x :: x in r <==> x in t.rows && Matches(x, p)
    ensures Ascending(t.rows) ==> Ascending(r)
  {
    KeepAscendingIf(t.rows, Admitted(p));
    Keep(t.rows, Admitted(p))
  }

  /** What the `SELECT ... ORDER BY id LIMIT $1` statement yields. */
  function Select(t: Table, p: GetParams): (r: seq<Person>)
    requires 0 <= p.limit
    ensures |r| <= p.limit
    ensures forall i :: 0 <= i < |r| ==> r[i] in t.rows && Matches(r[i], p)
    ensures Valid(t) ==> Ascending(r)
  {
    var all := Matching(t, p);
    var page := all[..Min(p.limit, |all|)];
    assert forall i :: 0 <= i < |page| ==> page[i] in all;
    page
  }

  /** The row stream ends early: `rows.Next` reports false after `at` rows,
      and `rows.Err` then holds `error` (a lost connection, an error raised
      by the server, a cancelled context). */
  datatype StreamBreak = StreamBreak(at: nat, error: DbError)

  /** What the driver reports while reading the result rows: `scan[i]` is the
      error `rows.Scan` returns for the i-th row, if any, and `broken` is where
      the stream ends early, if it does. */
  datatype QueryFault = QueryFault(
    query: Option<DbError>,
    scan: seq<Option<DbError>>,
    broken: Option<StreamBreak>)

  function ScanError(f: QueryFault, i: nat): Option<DbError> {
    if i < |f.scan| then f.scan[i] else None
  }

  /** The stream of a result with `n` rows ends before its last row has been
      delivered, or with an error right after it. */
  predicate Breaks(f: QueryFault, n: nat) {
    f.broken.Some? && f.broken.value.at <= n
  }

  /** How many of the `n` result rows `rows.Next` hands out. */
  function Delivered(f: QueryFault, n: nat): (d: nat)
    ensures d <= n
    ensures !Breaks(f, n) ==> d == n
  {
    if Breaks(f, n) then f.broken.value.at else n
  }

  /** `GetPeople` as written: runs the query, which PostgreSQL refuses when
      the age does not bind or the limit is negative, then reads the rows one
      by one. A scan error aborts the whole call. A stream that breaks only ends the
      loop, and `rows.Err` is never consulted, so the rows read so far come
      back as a success. */
  method GetPeople(t: Table, p: GetParams, fault: QueryFault) returns (r: Result<seq<Person>, DbError>)
    ensures fault.query.Some? ==> r == Failure(fault.query.value)
    ensures fault.query.None? && !AgeBinds(p) ==> r == Failure(OutOfRange)
    ensures fault.query.None? && AgeBinds(p) && p.limit < 0 ==> r == Failure(NegativeLimit)
    ensures fault.query.None? && AgeBinds(p) && 0 <= p.limit ==>
      var n := Delivered(fault, |Select(t, p)|);
      (r.Success? <==> forall i :: 0 <= i < n ==> ScanError(fault, i).None?)
    ensures r.Success? ==> AgeBinds(p) && 0 <= p.limit && r.value == Select(t, p)[..Delivered(fault, |Select(t, p)|)]
    ensures r.Success? && !Breaks(fault, |Select(t, p)|) ==> r.value == Select(t, p)
    ensures r.Failure? && fault.query.None? && AgeBinds(p) && 0 <= p.limit ==>
      exists k :: 0 <= k < Delivered(fault, |Select(t, p)|) && ScanError(fault, k) == Some(r.error)
        && forall i :: 0 <= i < k ==> ScanError(fault, i).None?
  {
    if fault.query.Some? {
      return Failure(fault.query.value);
    }
    if !AgeBinds(p) {
      return Failure(OutOfRange);
    }
    if p.limit < 0 {
      return Failure(NegativeLimit);
    }
    var rows := Select(t, p);
    var n := Delivered(fault, |rows|);
    var people: seq<Person> := [];
    var i := 0;
    while i < n
      invariant 0 <= i <= n
      invariant people == rows[..i]
      invariant forall j :: 0 <= j < i ==> ScanError(fault, j).None?
    {
      var e := ScanError(fault, i);
      if e.Some? {
        return Failure(e.value);
      }
      people := people + [rows[i]];
      i := i + 1;
    }
    return Success(people);
  }

  /** `GetPeople` with the `rows.Err` check after the loop: a stream that
      breaks fails the call with its error, so a success is always the whole
      page. */
  method GetPeopleChecked(t: Table, p: GetParams, fault: QueryFault) returns (r: Result<seq<Person>, DbError>)
    ensures fault.query.Some? ==> r == Failure(fault.query.value)
    ensures fault.query.None? && !AgeBinds(p) ==> r == Failure(OutOfRange)
    ensures fault.query.None? && AgeBinds(p) && p.limit < 0 ==> r == Failure(NegativeLimit)
    ensures fault.query.None? && AgeBinds(p) && 0 <= p.limit ==>
      (r.Success? <==>
        && !Breaks(fault, |Select(t, p)|)
        && forall i :: 0 <= i < |Select(t, p)| ==> ScanError(fault, i).None?)
    ensures r.Success? ==> AgeBinds(p) && 0 <= p.limit && r.value == Select(t, p)
    ensures r.Failure? && fault.query.None? && AgeBinds(p) && 0 <= p.limit ==>
      || (exists k :: 0 <= k < Delivered(fault, |Select(t, p)|) && ScanError(fault, k) == Some(r.error))
      || (Breaks(fault, |Select(t, p)|) && r.error == fault.broken.value.error)
  {
    r := GetPeople(t, p, fault);
    if r.Success? && Breaks(fault, |Select(t, p)|) {
      r := Failure(fault.broken.value.error);
    }
  }
}

=== FILE: wrappers.dfy ===
/** The two wrappers shared by every module of the model: `Option` stands
    for Go's nil-able pointers and `Result` for Go's `(value, error)` return
    pairs. */
module Wrappers {
  datatype Option<+T> = None | Some(value: T)

  datatype Result<+R, +E> = Success(value: R) | Failure(error: E)
}
